=== FILE: README.md ===
# Order-API-CRUD: the generic entity manager and the request decisions

A Dafny model of the core of a small HTTP CRUD backend for two resources,
Product and Order. The model covers:

- the two flat record schemas and their `to_dict` projection (module `Schema`);
- the generic `BaseManager`, which offers create, get-by-id, get-all, update
  and delete for one entity type (module `Manager`);
- the request handlers' decisions (module `Api`): the presence check on JSON
  bodies, the one manager call each route makes, and the mapping of its
  outcome to 200/201, 400, 404 or 500 with a JSON body.

The relational storage is abstracted:

- One table of an entity type is a `map<int, Entity>` from primary key to
  row. A database (`Api.Db`) holds one table per type.
- Every mutating operation is a pure function that returns the new table and
  the operation's result (`Manager.Step`).
- What the storage does with an insert is a parameter, `Manager.Verdict`,
  with three outcomes:
  - it commits under a primary key not yet in use (`Commit(newId)`);
  - it refuses the commit with the error text it raises (`Refuse(message)`).
    The rollback then leaves the table as it was;
  - it commits, and reading the row back then raises
    (`CommitThenRaise(newId, message)`). The rollback can no longer undo the
    commit, so the row stays stored although the create fails.
- The order in which the storage yields rows for `get_all` is a parameter too.
  It must name every stored id exactly once (`Manager.Enumerates`).

JSON values are `Json.Value`. A number written with a fraction or an
exponent (a Python float), such as a price, is kept as its literal text
(`Float("9.99")`), and no arithmetic is done on it. Keyword
arguments are a sequence of name/value pairs in call order
(`Manager.Kwargs`), as a Python dict keeps insertion order. Applying them is
the `setattr` loop. Python never passes a name twice; the sequence form
could, and would then read the last binding, but that case has no
counterpart in the source.

Files: `wrappers.dfy` (Option, Result), `json.dfy`, `schema.dfy`,
`manager.dfy`, `api.dfy` and `scenarios.dfy`. The last one holds concrete
exchanges, such as adding a product to an empty database or a 404 for a
missing id.

## Model

| member | source | states |
|---|---|---|
| `Schema.SetField` | app/data/DataManager.py:66 | writing one column by name changes that column only; the id and the kind stay the same |
| `Schema.Blank` | app/data/DataManager.py:14-16 | a row inserted without a column gets that column's default: 0.00 for `price`, NULL for every other column |
| `Schema.ToDict` | app/data/DataManager.py:19-41 | `to_dict` has exactly the keys `id` plus the type's columns (`name`, `price` / `client_name`, `product_id`, `client_house`), and each key holds that field's value |
| `Schema.FromDictToDict` | app/data/DataManager.py:19-41 | `to_dict` loses nothing: reading the object back gives the same entity |
| `Schema.ToDictFromDict` | app/data/DataManager.py:19-41 | conversely, every object that reads back as an entity is exactly that entity's `to_dict` |
| `Manager.Assign` | app/data/DataManager.py:65-66 | the `setattr` loop: each supplied column takes its supplied value, every other column and the id keep their prior values |
| `Manager.FirstUnknown` | app/data/DataManager.py:50 | for argument lists without `id`, the constructor rejects exactly those naming something outside the type's non-id columns, and the name it reports is the first such name in keyword order |
| `Manager.GetById` | app/data/DataManager.py:56-57 | the row under that id, or an absence value exactly when there is none; a miss is never an error |
| `Manager.GetByIdIsFilterById` | app/data/DataManager.py:57 | in a well-formed table, the key lookup agrees with `filter_by(id=...)`: it finds any row whose `id` column matches, and misses exactly when no row has that id |
| `Manager.Create` | app/data/DataManager.py:49-54 | succeeds exactly when every name is a column and the storage commits. An unknown keyword, or a commit the storage refuses, fails and leaves the table unchanged. Whenever the insert is committed, the table gains exactly one row under a fresh id, holding the supplied values and defaults for the rest; this includes a commit whose read-back then raises, which fails with the storage's error text while the row stays stored |
| `Manager.Update` | app/data/DataManager.py:62-69 | an absent id returns absence and writes nothing. A present id gets the supplied columns overwritten and the others kept; the updated row is stored and returned, and no other row changes |
| `Manager.Delete` | app/data/DataManager.py:71-77 | returns true exactly when the id was present; exactly that id leaves the table and every other row is untouched |
| `Manager.GetAll` | app/data/DataManager.py:59-60 | every stored row exactly once (distinct ids, each id present), each equal to the stored row, in the storage's order |
| `Manager.CreateThenGet` | app/data/DataManager.py:49-57 | after a successful create, get-by-id on the returned id gives the returned row, and every other id reads as before |
| `Manager.CreateThenDelete` | app/data/DataManager.py:49-77 | deleting a just-created row succeeds and restores the table exactly |
| `Manager.DeleteThenGet` | app/data/DataManager.py:71-76 | after a delete the id reads as absent and every other id reads as before |
| `Manager.UpdateThenGet` | app/data/DataManager.py:62-68 | after an update, get-by-id gives exactly what update returned (absence included) |
| `Manager.UpdateNothing` | app/data/DataManager.py:62-69 | an update with no keyword arguments returns the existing row (or absence) and leaves the table unchanged |
| `Manager.UpdateIdempotent` | app/data/DataManager.py:62-68 | repeating the same update changes nothing further |
| `Api.Forward` | main.py:52-71 | the create handlers pass on exactly the named keys, each carrying the body's value for it |
| `Api.ForwardReadsOnlyNames` | main.py:52-71 | the forwarded arguments depend only on the body's values at the forwarded names |
| `Api.Validate` | main.py:46-62 | a body is rejected exactly when it is absent, empty, or lacks a required key (`name`, `price` / `client_name`, `product_id`, `client_house`); an accepted body forwards exactly those keys with their values |
| `Api.CreateReply` | main.py:51-75 | a created row is answered 201 with its `to_dict`; a raised error is answered 500 with "Error creating product: " / "Error creating order: " followed by the error text |
| `Api.HandleCreate` | main.py:43-75 | the answer is 400 "Invalid data" exactly when the body fails the presence check, and then nothing is written. For a valid body it is 201 exactly when the storage commits cleanly and 500 otherwise; a 500 carries the prefixed error text. A refused commit leaves the database unchanged. A committed insert, whether answered 201 or 500 because the read-back raised, adds only the new row with the body's values under a fresh id to the resource's own table |
| `Api.RejectedBodyTouchesNothing` | main.py:46-49 | the 400 answer does not depend on the database or the storage, and writes nothing: validation precedes any store access |
| `Api.ExtraKeysIgnored` | main.py:52-71 | two bodies that agree on the required keys give the same exchange, whatever else they contain |
| `Api.HandleGetById` | main.py:25-41 | 404 with "Product not found" / "Order not found" exactly when the id is not stored, otherwise 200 with an object that reads back as the stored row |
| `Api.CreatedIsServed` | main.py:29-53 | after a 201 from create, get-by-id on the new id answers 200 with the same body |
| `Api.ListReply` | main.py:16-23 | the get-all body is a list with one `to_dict` per row, same length and same order |
| `Api.HandleGetAll` | main.py:11-23 | 200 with one object per stored row in the storage's order, each reading back as the stored row |
| `Scenarios.AddWidget` | main.py:43-53 | `{"name":"Widget","price":9.99}` into an empty database, committed as id 1, gives 201 `{"id":1,"name":"Widget","price":9.99}` and stores that one product |
| `Scenarios.AddOrder` | main.py:58-72 | an order for product 1 gives 201 with the order's fields and its generated id |
| `Scenarios.ProductNotFound` | main.py:25-32 | GET of product 999 on an empty database gives 404 `{"message":"Product not found"}` |
| `Scenarios.AddWithoutPrice` | main.py:46-47 | `{"name":"Widget"}` gives 400 `{"message":"Invalid data"}` and writes nothing |
| `Scenarios.AddRefused` | main.py:54-56 | a commit the storage refuses gives 500 with the prefixed error text and leaves the database as it was |
| `Scenarios.AddCommittedThenLost` | app/data/DataManager.py:52-53 | a product committed as id 1 whose read-back raises gives 500 with the prefixed error text, yet the product stays stored |

## Left out

- SQL queries and the session provider (`app/data/database.py`) are not
  modelled. A request's session is replaced by the table it reads or writes,
  and the outcome of its commit and refresh is the `Verdict` parameter.
- Database constraints are not modelled separately: NOT NULL on `name`,
  `client_name`, `product_id` and `client_house`, the foreign key from
  `Order.product_id` to `Product.id`, and the 100/200 string lengths. A
  violation is one of the storage's `Refuse` verdicts. `Create` can
  therefore return a row with a NULL required column if the verdict
  commits it.
- Manager.Create: the returned row holds the supplied values as given. The
  source re-reads the row from the storage after the commit
  (`session.refresh`). So a real row can differ: an integer `price` comes
  back as a float from the Float column, and the storage may apply the
  column default where the model stores an explicit `null`. That read-back
  belongs to the storage and is not modelled.
- Api.HandleCreate: the 201 body is the `to_dict` of the row `Create`
  returns. It therefore echoes the body's values rather than the storage's
  read-back, for the reason given for Manager.Create.
- Id allocation: only freshness is assumed (`FreshVerdict`). The actual
  policy belongs to the storage.
- Manager.Create: an `id` keyword argument is excluded by precondition. Python
  would accept it and the storage would decide about the clash. Other
  non-column class attributes (`to_dict`, `metadata`, dunder names) are
  treated as unknown keywords here, while the declarative constructor's
  `hasattr` test would accept them.
- Manager.FirstUnknown: an `id` argument is excluded by precondition, as in
  Manager.Create. The constructor's test is `hasattr` on the class, so it
  also accepts other class attributes (`to_dict`, `metadata`, dunder names).
  The model reports those as unknown keywords.
- Manager.Update: supplied names are restricted to the type's non-id columns
  by precondition. `setattr` with other names follows Python attribute
  semantics.
- Manager.Update, Manager.Delete: a commit that raises during update or delete
  is not modelled. No handler calls these operations, and the exception would
  simply propagate.
- Api.ErrorText: the text of a storage error is the verdict's message,
  carried unchanged. An unknown-keyword error uses the constructor's message
  and quotes the name with plain single quotes, without Python's `repr`
  escaping. The create handlers never trigger that error, because they
  forward only column names.
- Request parsing: `request.get_json()` is modelled as an optional JSON
  object. Non-object JSON bodies (lists, scalars) and Flask's own replies to
  malformed or non-JSON bodies are not modelled. Routing, `jsonify`, CORS and
  `app.run` are I/O glue.
- Api.HandleGetAll: the order of rows is the storage's, given as a parameter.
  The reply therefore states "each stored row once, in that order" and nothing
  about insertion order.
- Floating point: `price` is opaque text, and the default 0.00 is written as
  `Float("0.0")`.
- Concurrency and transaction isolation between requests are the storage
  engine's concern and are not modelled.

=== FILE: api.dfy ===
/** The HTTP handlers: presence validation of JSON bodies, the single
    manager call each route makes, and the mapping of its outcome to a
    status code and a JSON body. */
module Api {
  import opened Wrappers
  import opened Json
  import opened Schema
  import opened Manager

  /** The database: one table per entity type. */
  datatype Db = Db(products: Table, orders: Table)

  /** A JSON reply. */
  datatype Response = Response(status: int, body: Value)

  /** What a request leaves in the database, and its reply. */
  datatype Exchange = Exchange(db: Db, response: Response)

  /** The decoded request body: `None` when there is none, else a JSON object. */
  type Body = Option<map<string, Value>>

  function TableOf(db: Db, k: Kind): Table
  {
    match k
    case ProductKind => db.products
    case OrderKind => db.orders
  }

  /** The database with the table of `k` replaced and the other one kept. */
  function WithTable(db: Db, k: Kind, t: Table): (r: Db)
    ensures TableOf(r, k) == t
    ensures forall other :: other != k ==> TableOf(r, other) == TableOf(db, other)
  {
    match k
    case ProductKind => db.(products := t)
    case OrderKind => db.(orders := t)
  }

  ghost predicate Consistent(db: Db)
  {
    WellFormed(ProductKind, db.products) && WellFormed(OrderKind, db.orders)
  }

  const InvalidData: Response := Response(400, Message("Invalid data"))

  function NotFoundText(k: Kind): string
  {
    match k
    case ProductKind => "Product not found"
    case OrderKind => "Order not found"
  }

  function CreateErrorPrefix(k: Kind): string
  {
    match k
    case ProductKind => "Error creating product: "
    case OrderKind => "Error creating order: "
  }

  /** `str(e)` of what `create` raised. For an unknown keyword this is the
      declarative constructor's `TypeError` text. */
  function ErrorText(k: Kind, err: CreateError): string
  {
    match err
    case InvalidKeyword(key) => "'" + key + "' is an invalid keyword argument for " + ModelName(k)
    case StorageError(message) => message
  }

  /** The keys each create handler requires, in the order it forwards them. */
  function RequiredKeys(k: Kind): (names: seq<string>)
    ensures forall f :: f in names <==> f in Fields(k)
  {
    match k
    case ProductKind => ["name", "price"]
    case OrderKind => ["client_name", "product_id", "client_house"]
  }

  /** `create(name=data['name'], ...)`: one keyword argument per name, carrying
      the body's value for it; nothing else from the body is passed on. */
  function Forward(names: seq<string>, data: map<string, Value>): (kw: Kwargs)
    requires forall n :: n in names ==> n in data
    ensures forall f :: f in KeysOf(kw) <==> f in names
    ensures forall f :: f in KeysOf(kw) ==> Supplied(kw, f) == data[f]
    decreases |names|
  {
    if names == [] then []
    else
      var kw := Forward(names[..|names| - 1], data) + [(names[|names| - 1], data[names[|names| - 1]])];
      assert Init(kw) == Forward(names[..|names| - 1], data);
      assert forall f :: f in names <==> f in names[..|names| - 1] || f == names[|names| - 1] by {
        assert names == names[..|names| - 1] + [names[|names| - 1]];
      }
      kw
  }

  /** The presence check at the top of `product_create` / `order_create`,
      and the keyword arguments the handler then forwards to `create`: the
      required keys only, with the body's values. */
  function Validate(k: Kind, body: Body): (r: Option<Kwargs>)
    ensures r.None? <==>
      body.None? || |body.value| == 0 || exists f :: f in Fields(k) && f !in body.value
    ensures r.Some? ==>
      && KeysOf(r.value) == Fields(k)
      && forall f :: f in Fields(k) ==> Supplied(r.value, f) == body.value[f]
  {
    match body
    case None => None
    case Some(data) =>
      if |data| == 0 then None
      else if
        match k
        case ProductKind => "name" !in data || "price" !in data
        case OrderKind => "client_name" !in data || "product_id" !in data || "client_house" !in data
      then None
      else Some(Forward(RequiredKeys(k), data))
  }

  /** The `try`/`except` around `create`: the created row as 201, or 500 with
      the error text behind the handler's prefix. */
  function CreateReply(k: Kind, outcome: Result<Entity, CreateError>): (r: Response)
    requires outcome.Success? ==> KindOf(outcome.value) == k
    ensures r.status == 201 <==> outcome.Success?
    ensures r.status == 201 ==>
      r.body.Obj? && FromDict(k, r.body.fields) == Some(outcome.value)
    ensures r.status != 201 ==>
      r.status == 500 && r.body == Message(CreateErrorPrefix(k) + ErrorText(k, outcome.error))
  {
    match outcome
    case Success(e) =>
      FromDictToDict(e);
      Response(201, Obj(ToDict(e)))
    case Failure(err) => Response(500, Message(CreateErrorPrefix(k) + ErrorText(k, err)))
  }

  /** POST `/product/add` and `/order/add`. A body that fails the presence
      check is answered 400 before any session is opened. Otherwise exactly
      one `create` runs: a success is answered 201 with the new row, a failure
      500. The rollback after a failure undoes a refused commit, but not a
      commit whose read-back raised: that row stays stored. */
  function HandleCreate(k: Kind, db: Db, body: Body, v: Verdict): (r: Exchange)
    requires Consistent(db)
    requires FreshVerdict(TableOf(db, k), v)
    ensures Consistent(r.db)
    ensures Validate(k, body).None? ==> r == Exchange(db, InvalidData)
    ensures r.response.status in {201, 400, 500}
    ensures r.response.status == 400 <==> Validate(k, body).None?
    ensures Validate(k, body).Some? ==>
      && (r.response.status == 201 <==> v.Commit?)
      && (r.response.status == 500 <==> !v.Commit?)
    ensures r.response.status == 400 || v.Refuse? ==> r.db == db
    ensures r.response.status == 500 ==>
      !v.Commit? && r.response.body == Message(CreateErrorPrefix(k) + v.message)
    ensures Validate(k, body).Some? && v.Stores() ==>
      && v.newId !in TableOf(db, k)
      && v.newId in TableOf(r.db, k)
      && var e := TableOf(r.db, k)[v.newId];
      && e.id == v.newId
      && (forall f :: f in Fields(k) ==> Field(e, f) == body.value[f])
      && TableOf(r.db, k) == TableOf(db, k)[v.newId := e]
      && (forall other :: other != k ==> TableOf(r.db, other) == TableOf(db, other))
    ensures r.response.status == 201 ==>
      && r.response.body.Obj?
      && FromDict(k, r.response.body.fields) == Some(TableOf(r.db, k)[v.newId])
  {
    match Validate(k, body)
    case None => Exchange(db, InvalidData)
    case Some(kw) =>
      var step := Create(k, TableOf(db, k), kw, v);
      Exchange(WithTable(db, k, step.table), CreateReply(k, step.out))
  }

  /** GET `/product/get/<id>` and `/order/get/<id>`: 404 with the handler's
      message exactly when the manager finds nothing, otherwise 200 with the
      row's `to_dict`. */
  function HandleGetById(k: Kind, db: Db, id: int): (r: Response)
    requires Consistent(db)
    ensures r.status == 404 <==> id !in TableOf(db, k)
    ensures r.status == 404 ==> r.body == Message(NotFoundText(k))
    ensures r.status != 404 ==>
      && r.status == 200 && r.body.Obj?
      && FromDict(k, r.body.fields) == Some(TableOf(db, k)[id])
      && TableOf(db, k)[id].id == id
  {
    match GetById(TableOf(db, k), id)
    case Some(e) =>
      FromDictToDict(e);
      Response(200, Obj(ToDict(e)))
    case None => Response(404, Message(NotFoundText(k)))
  }

  /** The list body of the get-all handlers: one `to_dict` per row, same
      length, same order. */
  function ListReply(k: Kind, rows: seq<Entity>): (r: Response)
    requires forall i :: 0 <= i < |rows| ==> KindOf(rows[i]) == k
    ensures r.status == 200 && r.body.Arr? && |r.body.items| == |rows|
    ensures forall i :: 0 <= i < |rows| ==>
      r.body.items[i].Obj? && FromDict(k, r.body.items[i].fields) == Some(rows[i])
  {
    var items := seq(|rows|, i requires 0 <= i < |rows| => Obj(ToDict(rows[i])));
    assert forall i :: 0 <= i < |rows| ==> FromDict(k, ToDict(rows[i])) == Some(rows[i]) by {
      forall i | 0 <= i < |rows| {
        FromDictToDict(rows[i]);
      }
    }
    Response(200, Arr(items))
  }

  /** GET `/product/get` and `/order/get`: 200 with every stored row of the
      type exactly once, in the storage's order. */
  function HandleGetAll(k: Kind, db: Db, order: seq<int>): (r: Response)
    requires Consistent(db)
    requires Enumerates(TableOf(db, k), order)
    ensures r.status == 200 && r.body.Arr? && |r.body.items| == |order|
    ensures forall i :: 0 <= i < |order| ==>
      r.body.items[i].Obj? && FromDict(k, r.body.items[i].fields) == Some(TableOf(db, k)[order[i]])
  {
    ListReply(k, GetAll(TableOf(db, k), order))
  }

  // ---------------------------------------------------------------------
  // Properties of the handlers

  /** The forwarded arguments depend only on the body's values at the
      forwarded names. */
  lemma {:induction false} ForwardReadsOnlyNames(names: seq<string>, a: map<string, Value>, b: map<string, Value>)
    requires forall n :: n in names ==> n in a && n in b && a[n] == b[n]
    ensures Forward(names, a) == Forward(names, b)
    decreases |names|
  {
    if names != [] {
      ForwardReadsOnlyNames(names[..|names| - 1], a, b);
    }
  }

  /** A body rejected by the presence check is answered without looking at
      the database or the storage: the reply is the same whatever they hold,
      and nothing is written. */
  lemma RejectedBodyTouchesNothing(k: Kind, db1: Db, db2: Db, body: Body, v1: Verdict, v2: Verdict)
    requires Consistent(db1) && FreshVerdict(TableOf(db1, k), v1)
    requires Consistent(db2) && FreshVerdict(TableOf(db2, k), v2)
    requires Validate(k, body).None?
    ensures HandleCreate(k, db1, body, v1).db == db1
    ensures HandleCreate(k, db2, body, v2).db == db2
    ensures HandleCreate(k, db1, body, v1).response == HandleCreate(k, db2, body, v2).response
  {
  }

  /** Keys of the body other than the required ones have no effect. */
  lemma ExtraKeysIgnored(k: Kind, db: Db, a: map<string, Value>, b: map<string, Value>, v: Verdict)
    requires Consistent(db) && FreshVerdict(TableOf(db, k), v)
    requires forall f :: f in Fields(k) ==> f in a && f in b && a[f] == b[f]
    ensures HandleCreate(k, db, Some(a), v) == HandleCreate(k, db, Some(b), v)
  {
    ForwardReadsOnlyNames(RequiredKeys(k), a, b);
    assert Validate(k, Some(a)) == Validate(k, Some(b));
  }

  /** A created row is served back, unchanged, by the get-by-id handler. */
  lemma CreatedIsServed(k: Kind, db: Db, body: Body, v: Verdict)
    requires Consistent(db) && FreshVerdict(TableOf(db, k), v)
    requires HandleCreate(k, db, body, v).response.status == 201
    ensures var r := HandleCreate(k, db, body, v);
      HandleGetById(k, r.db, v.newId) == Response(200, r.response.body)
  {
  }
}

=== FILE: json.dfy ===
/** JSON values as Python's `json` module hands them to the application. */
module Json {

  /** A decoded JSON value. Integers and floats are distinct, as they are
      after decoding (`int` against `float`). A number written with a
      fraction or an exponent (a Python float) is kept as its literal text:
      the model does no arithmetic on it. */
  datatype Value =
    | Null
    | Bool(b: bool)
    | Int(i: int)
    | Float(literal: string)
    | Str(s: string)
    | Arr(items: seq<Value>)
    | Obj(fields: map<string, Value>)

  /** The `{"message": text}` body every handler uses for errors. */
  function Message(text: string): (v: Value)
    ensures v.Obj? && v.fields.Keys == {"message"} && v.fields["message"] == Str(text)
  {
    Obj(map["message" := Str(text)])
  }
}

=== FILE: manager.dfy ===
/** `BaseManager`: create, read, update and delete over one entity type,
    with the storage abstracted as a table from id to row. */
module Manager {
  import opened Wrappers
  import opened Json
  import opened Schema

  /** The rows of one entity type, keyed by primary key. */
  type Table = map<int, Entity>

  /** Keyword arguments in call order (a Python dict keeps insertion order).
      Python never passes the same name twice; a sequence can repeat a name,
      and the functions below then read the last binding. That case has no
      counterpart in the source. */
  type Kwargs = seq<(string, Value)>

  /** What a mutating operation leaves in the table, and what it returns. */
  datatype Step<+R> = Step(table: Table, out: R)

  /** What the storage does with an insert. It commits it under a primary key
      of its choosing; or it refuses it at the commit (constraint violation,
      lost connection, ...), and the rollback leaves nothing behind; or it
      commits it and then raises while the row is read back
      (`session.refresh`), when the rollback can no longer undo the commit.
      A refusal carries the text of the error raised. */
  datatype Verdict =
    | Commit(newId: int)
    | Refuse(message: string)
    | CommitThenRaise(newId: int, message: string)
  {
    /** The insert reaches the table. */
    predicate Stores()
    {
      !Refuse?
    }
  }

  /** Why `create` raised. */
  datatype CreateError =
    | InvalidKeyword(key: string)   // the constructor was given a name that is not a column
    | StorageError(message: string) // the storage raised, at the commit or at the read-back after it

  /** Every row sits under its own id and is of the manager's entity type. */
  ghost predicate WellFormed(k: Kind, t: Table)
  {
    forall id :: id in t ==> t[id].id == id && KindOf(t[id]) == k
  }

  /** The storage only ever assigns a primary key not already in use. */
  predicate FreshVerdict(t: Table, v: Verdict)
  {
    v.Stores() ==> v.newId !in t
  }

  // ---------------------------------------------------------------------
  // Keyword arguments

  function Init(kw: Kwargs): Kwargs
    requires |kw| > 0
  {
    kw[..|kw| - 1]
  }

  function Last(kw: Kwargs): (string, Value)
    requires |kw| > 0
  {
    kw[|kw| - 1]
  }

  /** The names supplied. */
  function KeysOf(kw: Kwargs): (ks: set<string>)
    ensures forall i :: 0 <= i < |kw| ==> kw[i].0 in ks
    ensures forall f :: f in ks ==> exists i :: 0 <= i < |kw| && kw[i].0 == f
  {
    if kw == [] then {} else KeysOf(Init(kw)) + {Last(kw).0}
  }

  /** The value supplied for `f`: the last binding of it. */
  function Supplied(kw: Kwargs, f: string): Value
    requires f in KeysOf(kw)
  {
    if Last(kw).0 == f then Last(kw).1 else Supplied(Init(kw), f)
  }

  /** The `for key, value in kwargs.items(): setattr(obj, key, value)` loop:
      each supplied column takes its supplied value, every other column keeps
      its value, and the id is never touched. */
  function Assign(e: Entity, kw: Kwargs): (r: Entity)
    requires KeysOf(kw) <= Fields(KindOf(e))
    ensures KindOf(r) == KindOf(e) && r.id == e.id
    ensures forall f :: f in Fields(KindOf(e)) ==>
      Field(r, f) == (if f in KeysOf(kw) then Supplied(kw, f) else Field(e, f))
    decreases |kw|
  {
    if kw == [] then e else SetField(Assign(e, Init(kw)), Last(kw).0, Last(kw).1)
  }

  /** Position `i` holds a non-column name and no earlier position does. */
  predicate UnknownFirstAt(k: Kind, kw: Kwargs, i: int)
  {
    && 0 <= i < |kw|
    && kw[i].0 !in Fields(k)
    && forall j :: 0 <= j < i ==> kw[j].0 in Fields(k)
  }

  /** The first supplied name that is not a column of `k`, which is the one
      the constructor raises on. */
  function FirstUnknown(k: Kind, kw: Kwargs): (r: Option<string>)
    requires "id" !in KeysOf(kw)
    ensures r.None? <==> KeysOf(kw) <= Fields(k)
    ensures r.Some? ==> r.value in KeysOf(kw) && r.value !in Fields(k)
    ensures r.Some? ==> exists i :: UnknownFirstAt(k, kw, i) && kw[i].0 == r.value
    decreases |kw|
  {
    if kw == [] then None
    else
      match FirstUnknown(k, Init(kw))
      case Some(key) =>
        UnknownFirstKept(k, kw);
        Some(key)
      case None =>
        if Last(kw).0 in Fields(k) then None
        else
          UnknownFirstAtLast(k, kw);
          Some(Last(kw).0)
  }

  /** Appending a keyword does not move an earlier first unknown name. */
  lemma UnknownFirstKept(k: Kind, kw: Kwargs)
    requires |kw| > 0
    ensures forall i :: UnknownFirstAt(k, Init(kw), i) ==> UnknownFirstAt(k, kw, i)
  {
  }

  /** When every earlier name is a column, an unknown last name is the first. */
  lemma UnknownFirstAtLast(k: Kind, kw: Kwargs)
    requires |kw| > 0 && KeysOf(Init(kw)) <= Fields(k) && Last(kw).0 !in Fields(k)
    ensures UnknownFirstAt(k, kw, |kw| - 1)
  {
    forall j | 0 <= j < |kw| - 1
      ensures kw[j].0 in Fields(k)
    {
      assert Init(kw)[j].0 in KeysOf(Init(kw));
    }
  }

  // ---------------------------------------------------------------------
  // The five operations

  /** `get_by_id`: the row whose id matches, or `None`; a miss is not an error. */
  function GetById(t: Table, id: int): (r: Option<Entity>)
    ensures r.None? <==> id !in t
    ensures r.Some? ==> r.value == t[id]
  {
    if id in t then Some(t[id]) else None
  }

  /** `create`: build the object from the keyword arguments, insert it and
      commit, then read the row back. Whenever the insert reaches the table,
      the table gains exactly the new row, under a fresh id, holding the
      supplied values and the column defaults for the rest. An unknown keyword
      or a refused commit leaves the table as before; a failure of the
      read-back raises although the row stays stored. */
  function Create(k: Kind, t: Table, kw: Kwargs, v: Verdict): (r: Step<Result<Entity, CreateError>>)
    requires WellFormed(k, t)
    requires "id" !in KeysOf(kw)
    requires FreshVerdict(t, v)
    ensures WellFormed(k, r.table)
    ensures r.out.Success? <==> KeysOf(kw) <= Fields(k) && v.Commit?
    ensures r.out.Failure? && r.out.error.InvalidKeyword? ==>
      exists i :: UnknownFirstAt(k, kw, i) && kw[i].0 == r.out.error.key
    ensures r.out.Failure? && r.out.error.StorageError? ==>
      KeysOf(kw) <= Fields(k) && !v.Commit? && r.out.error.message == v.message
    ensures !(KeysOf(kw) <= Fields(k)) || v.Refuse? ==> r.table == t
    ensures KeysOf(kw) <= Fields(k) && v.Stores() ==>
      && v.newId !in t
      && r.table.Keys == t.Keys + {v.newId}
      && (forall id :: id in t ==> r.table[id] == t[id])
      && var e := r.table[v.newId];
      && e.id == v.newId && KindOf(e) == k
      && (forall f :: f in Fields(k) ==>
            Field(e, f) == (if f in KeysOf(kw) then Supplied(kw, f) else Default(f)))
    ensures r.out.Success? ==> r.out.value == r.table[v.newId]
  {
    match FirstUnknown(k, kw)
    case Some(key) => Step(t, Failure(InvalidKeyword(key)))
    case None =>
      match v
      case Refuse(message) => Step(t, Failure(StorageError(message)))
      case Commit(newId) =>
        var e := Assign(Blank(k, newId), kw);
        Step(t[newId := e], Success(e))
      case CommitThenRaise(newId, message) =>
        var e := Assign(Blank(k, newId), kw);
        Step(t[newId := e], Failure(StorageError(message)))
  }

  /** `update`: on a miss, `None` and no write. On a hit, the row with the
      supplied columns overwritten is stored and returned; no other row
      changes. */
  function Update(k: Kind, t: Table, id: int, kw: Kwargs): (r: Step<Option<Entity>>)
    requires WellFormed(k, t)
    requires KeysOf(kw) <= Fields(k)
    ensures WellFormed(k, r.table)
    ensures id !in t ==> r.out.None? && r.table == t
    ensures id in t ==>
      && r.out.Some?
      && r.out.value.id == id
      && KindOf(r.out.value) == k
      && (forall f :: f in Fields(k) ==>
            Field(r.out.value, f) == (if f in KeysOf(kw) then Supplied(kw, f) else Field(t[id], f)))
      && r.table.Keys == t.Keys
      && r.table[id] == r.out.value
      && (forall other :: other in t && other != id ==> r.table[other] == t[other])
  {
    match GetById(t, id)
    case None => Step(t, None)
    case Some(e) =>
      var e' := Assign(e, kw);
      Step(t[id := e'], Some(e'))
  }

  /** `delete`: on a hit the row is removed and the answer is true; on a miss
      nothing changes and the answer is false. */
  function Delete(t: Table, id: int): (r: Step<bool>)
    ensures r.out <==> id in t
    ensures r.table.Keys == t.Keys - {id}
    ensures forall other :: other in r.table ==> r.table[other] == t[other]
  {
    match GetById(t, id)
    case None => Step(t, false)
    case Some(_) => Step(t - {id}, true)
  }

  /** The order in which the storage yields the rows of `t`: each stored id
      exactly once. Which order that is, the storage decides. */
  predicate Enumerates(t: Table, order: seq<int>)
  {
    && (forall i :: 0 <= i < |order| ==> order[i] in t)
    && (forall id :: id in t ==> id in order)
    && (forall i, j :: 0 <= i < j < |order| ==> order[i] != order[j])
  }

  /** `get_all`: every stored row exactly once, in the storage's order. */
  function GetAll(t: Table, order: seq<int>): (rows: seq<Entity>)
    requires forall id :: id in t ==> t[id].id == id
    requires Enumerates(t, order)
    ensures |rows| == |order|
    ensures forall i :: 0 <= i < |rows| ==> rows[i].id == order[i]
    ensures forall i :: 0 <= i < |rows| ==> rows[i].id in t && t[rows[i].id] == rows[i]
    ensures forall i, j :: 0 <= i < j < |rows| ==> rows[i].id != rows[j].id
    ensures forall id :: id in t ==> exists i :: 0 <= i < |rows| && rows[i].id == id
  {
    seq(|order|, i requires 0 <= i < |order| => t[order[i]])
  }

  // ---------------------------------------------------------------------
  // Properties relating the operations

  /** `filter_by(id=item_id).first()`: in a well-formed table the key lookup
      finds the row whose `id` column matches, and misses exactly when no row
      has that id. */
  lemma GetByIdIsFilterById(k: Kind, t: Table, id: int)
    requires WellFormed(k, t)
    ensures forall key :: key in t && t[key].id == id ==> GetById(t, id) == Some(t[key])
    ensures GetById(t, id).None? <==> forall key :: key in t ==> t[key].id != id
  {
  }

  /** A created row can be read back under the id `create` returned, and
      every other id reads as before. */
  lemma CreateThenGet(k: Kind, t: Table, kw: Kwargs, v: Verdict, other: int)
    requires WellFormed(k, t)
    requires "id" !in KeysOf(kw)
    requires FreshVerdict(t, v)
    requires Create(k, t, kw, v).out.Success?
    ensures var r := Create(k, t, kw, v);
      && GetById(r.table, r.out.value.id) == Some(r.out.value)
      && (other != r.out.value.id ==> GetById(r.table, other) == GetById(t, other))
  {
  }

  /** Deleting what was just created restores the table. */
  lemma CreateThenDelete(k: Kind, t: Table, kw: Kwargs, v: Verdict)
    requires WellFormed(k, t)
    requires "id" !in KeysOf(kw)
    requires FreshVerdict(t, v)
    requires Create(k, t, kw, v).out.Success?
    ensures var r := Create(k, t, kw, v);
      Delete(r.table, r.out.value.id) == Step(t, true)
  {
  }

  /** After a delete the id reads as absent and every other id reads as
      before. */
  lemma DeleteThenGet(t: Table, id: int, other: int)
    ensures GetById(Delete(t, id).table, id) == None
    ensures other != id ==> GetById(Delete(t, id).table, other) == GetById(t, other)
  {
  }

  /** After an update the id reads as exactly what `update` returned. */
  lemma UpdateThenGet(k: Kind, t: Table, id: int, kw: Kwargs)
    requires WellFormed(k, t)
    requires KeysOf(kw) <= Fields(k)
    ensures GetById(Update(k, t, id, kw).table, id) == Update(k, t, id, kw).out
  {
  }

  /** An update with no keyword arguments returns the existing row, or `None`,
      and leaves the table as it was. */
  lemma UpdateNothing(k: Kind, t: Table, id: int)
    requires WellFormed(k, t)
    ensures Update(k, t, id, []) == Step(t, GetById(t, id))
  {
  }

  /** Repeating an update changes nothing further. */
  lemma UpdateIdempotent(k: Kind, t: Table, id: int, kw: Kwargs)
    requires WellFormed(k, t)
    requires KeysOf(kw) <= Fields(k)
    ensures var once := Update(k, t, id, kw);
      Update(k, once.table, id, kw) == once
  {
  }
}

=== FILE: scenarios.dfy ===
/** Concrete request/response exchanges for the two resources. */
module Scenarios {
  import opened Wrappers
  import opened Json
  import opened Schema
  import opened Manager
  import opened Api

  const Empty: Db := Db(map[], map[])

  /** POST `/product/add` with `{"name": "Widget", "price": 9.99}` into an empty
      database, the storage assigning id 1. */
  lemma AddWidget()
    ensures HandleCreate(ProductKind, Empty,
              Some(map["name" := Str("Widget"), "price" := Float("9.99")]), Commit(1))
         == Exchange(
              Db(map[1 := Product(1, Str("Widget"), Float("9.99"))], map[]),
              Response(201, Obj(map["id" := Int(1), "name" := Str("Widget"), "price" := Float("9.99")])))
  {
  }

  /** POST `/order/add` when Product 1 exists: 201 with the created order and
      its generated id. */
  lemma AddOrder()
    ensures
      var db := Db(map[1 := Product(1, Str("Widget"), Float("9.99"))], map[]);
      var body := map["client_name" := Str("Ana"), "product_id" := Int(1),
                      "client_house" := Str("Rua A, 10")];
      HandleCreate(OrderKind, db, Some(body), Commit(1)).response
        == Response(201, Obj(map["id" := Int(1), "client_name" := Str("Ana"),
                                 "product_id" := Int(1), "client_house" := Str("Rua A, 10")]))
  {
    var body := map["client_name" := Str("Ana"), "product_id" := Int(1),
                    "client_house" := Str("Rua A, 10")];
    OrderBodyForwarded(body);
    OrderCreated(map[], Str("Ana"), Int(1), Str("Rua A, 10"), 1);
  }

  /** The order handler forwards a full body as three arguments in its order. */
  lemma OrderBodyForwarded(body: map<string, Value>)
    requires "client_name" in body && "product_id" in body && "client_house" in body
    ensures Validate(OrderKind, Some(body)) == Some([
      ("client_name", body["client_name"]),
      ("product_id", body["product_id"]),
      ("client_house", body["client_house"])])
  {
    ForwardThree("client_name", "product_id", "client_house", body);
  }

  /** Creating an order from the three forwarded arguments stores and returns
      exactly that order. */
  lemma OrderCreated(t: Table, name: Value, product: Value, house: Value, id: int)
    requires WellFormed(OrderKind, t) && id !in t
    ensures var kw := [("client_name", name), ("product_id", product), ("client_house", house)];
      var e := Order(id, name, product, house);
      Create(OrderKind, t, kw, Commit(id)) == Step(t[id := e], Success(e))
  {
    var kw := [("client_name", name), ("product_id", product), ("client_house", house)];
    ThreeKeywords(kw);
    var r := Create(OrderKind, t, kw, Commit(id));
    var e := r.table[id];
    assert Field(e, "client_name") == name;
    assert Field(e, "product_id") == product;
    assert Field(e, "client_house") == house;
    assert r.table == t[id := Order(id, name, product, house)];
  }

  /** A keyword list of three distinct names supplies each name's own value. */
  lemma ThreeKeywords(kw: Kwargs)
    requires |kw| == 3 && kw[0].0 != kw[1].0 && kw[0].0 != kw[2].0 && kw[1].0 != kw[2].0
    ensures KeysOf(kw) == {kw[0].0, kw[1].0, kw[2].0}
    ensures Supplied(kw, kw[0].0) == kw[0].1
    ensures Supplied(kw, kw[1].0) == kw[1].1
    ensures Supplied(kw, kw[2].0) == kw[2].1
  {
    assert Init(kw) == kw[..2] && Init(kw[..2]) == kw[..1] && Init(kw[..1]) == [];
    assert KeysOf(kw[..1]) == {kw[0].0};
    assert KeysOf(kw[..2]) == {kw[0].0, kw[1].0};
    assert Supplied(kw[..2], kw[0].0) == kw[0].1;
  }

  /** Forwarding three names passes them on in order with the body's values. */
  lemma ForwardThree(a: string, b: string, c: string, data: map<string, Value>)
    requires a in data && b in data && c in data
    ensures Forward([a, b, c], data) == [(a, data[a]), (b, data[b]), (c, data[c])]
  {
    assert [a, b, c][..2] == [a, b] && [a, b][..1] == [a] && [a][..0] == [];
    assert Forward([a], data) == [(a, data[a])];
    assert Forward([a, b], data) == [(a, data[a]), (b, data[b])];
  }

  /** GET `/product/get/999` when no such product exists. */
  lemma ProductNotFound()
    ensures HandleGetById(ProductKind, Empty, 999)
         == Response(404, Obj(map["message" := Str("Product not found")]))
  {
  }

  /** POST `/product/add` with `{"name": "Widget"}`: the price is missing. */
  lemma AddWithoutPrice(db: Db, v: Verdict)
    requires Consistent(db) && FreshVerdict(db.products, v)
    ensures HandleCreate(ProductKind, db, Some(map["name" := Str("Widget")]), v)
         == Exchange(db, Response(400, Obj(map["message" := Str("Invalid data")])))
  {
  }

  /** A commit the storage refuses is answered 500 and leaves the database as
      it was. */
  lemma AddRefused(db: Db)
    requires Consistent(db)
    ensures HandleCreate(ProductKind, db,
              Some(map["name" := Str("Widget"), "price" := Float("9.99")]), Refuse("locked"))
         == Exchange(db, Response(500, Obj(map["message" := Str("Error creating product: locked")])))
  {
    assert "Error creating product: " + "locked" == "Error creating product: locked";
  }

  /** The insert commits as id 1 and reading the row back then raises: the
      answer is 500, yet the product stays stored. */
  lemma AddCommittedThenLost()
    ensures HandleCreate(ProductKind, Empty,
              Some(map["name" := Str("Widget"), "price" := Float("9.99")]), CommitThenRaise(1, "gone"))
         == Exchange(
              Db(map[1 := Product(1, Str("Widget"), Float("9.99"))], map[]),
              Response(500, Obj(map["message" := Str("Error creating product: gone")])))
  {
    var body := map["name" := Str("Widget"), "price" := Float("9.99")];
    assert Forward(["name", "price"], body) == [("name", Str("Widget")), ("price", Float("9.99"))];
    assert "Error creating product: " + "gone" == "Error creating product: gone";
  }
}

=== FILE: schema.dfy ===
/** The two persisted record shapes, `Product` and `Order`, and their
    projection to a JSON object (`to_dict`). */
module Schema {
  import opened Wrappers
  import opened Json

  /** The entity type a manager is bound to (its `model`). */
  datatype Kind = ProductKind | OrderKind

  /** One stored row. `id` is the storage-assigned primary key; every other
      column holds a JSON value. The application itself never converts or
      checks these values; what the storage makes of them on insert is not
      part of this model. */
  datatype Entity =
    | Product(id: int, name: Value, price: Value)
    | Order(id: int, clientName: Value, productId: Value, clientHouse: Value)

  function KindOf(e: Entity): Kind
  {
    if e.Product? then ProductKind else OrderKind
  }

  /** The class name, which is also the table name. */
  function ModelName(k: Kind): string
  {
    match k
    case ProductKind => "Product"
    case OrderKind => "Order"
  }

  /** The column names other than `id`: the attributes a caller may supply. */
  function Fields(k: Kind): set<string>
  {
    match k
    case ProductKind => {"name", "price"}
    case OrderKind => {"client_name", "product_id", "client_house"}
  }

  /** Attribute read by column name (`getattr`). */
  function Field(e: Entity, f: string): Value
    requires f in Fields(KindOf(e))
  {
    match e
    case Product(_, name, price) =>
      if f == "name" then name else price
    case Order(_, clientName, productId, clientHouse) =>
      if f == "client_name" then clientName
      else if f == "product_id" then productId
      else clientHouse
  }

  /** Attribute write by column name (`setattr`): exactly one column changes. */
  function SetField(e: Entity, f: string, v: Value): (r: Entity)
    requires f in Fields(KindOf(e))
    ensures KindOf(r) == KindOf(e) && r.id == e.id
    ensures Field(r, f) == v
    ensures forall g :: g in Fields(KindOf(e)) && g != f ==> Field(r, g) == Field(e, g)
  {
    match e
    case Product(id, name, price) =>
      if f == "name" then Product(id, v, price) else Product(id, name, v)
    case Order(id, clientName, productId, clientHouse) =>
      if f == "client_name" then Order(id, v, productId, clientHouse)
      else if f == "product_id" then Order(id, clientName, v, clientHouse)
      else Order(id, clientName, productId, v)
  }

  /** The value a column takes when a row is inserted without it: `price`
      has a column default of 0.00, every other column is NULL. */
  function Default(f: string): Value
  {
    if f == "price" then Float("0.0") else Null
  }

  /** A row inserted without any column, under the id the storage assigns:
      each column holds its default. */
  function Blank(k: Kind, id: int): (e: Entity)
    ensures KindOf(e) == k && e.id == id
    ensures forall f :: f in Fields(k) ==> Field(e, f) == Default(f)
  {
    match k
    case ProductKind => Product(id, Null, Float("0.0"))
    case OrderKind => Order(id, Null, Null, Null)
  }

  /** `to_dict`: the key `id` plus one key per column, each holding that
      column's value. */
  function ToDict(e: Entity): (d: map<string, Value>)
    ensures d.Keys == {"id"} + Fields(KindOf(e))
    ensures d["id"] == Int(e.id)
    ensures forall f :: f in Fields(KindOf(e)) ==> d[f] == Field(e, f)
  {
    match e
    case Product(id, name, price) =>
      map["id" := Int(id), "name" := name, "price" := price]
    case Order(id, clientName, productId, clientHouse) =>
      map["id" := Int(id), "client_name" := clientName,
          "product_id" := productId, "client_house" := clientHouse]
  }

  /** Reads a `to_dict` object back: it must have exactly the keys of `k`
      and an integral `id`. */
  function FromDict(k: Kind, d: map<string, Value>): (r: Option<Entity>)
    ensures r.Some? ==> KindOf(r.value) == k
  {
    if d.Keys != {"id"} + Fields(k) || !d["id"].Int? then None
    else
      match k
      case ProductKind => Some(Product(d["id"].i, d["name"], d["price"]))
      case OrderKind =>
        Some(Order(d["id"].i, d["client_name"], d["product_id"], d["client_house"]))
  }

  /** `to_dict` loses nothing: the object reads back as the same entity. */
  lemma FromDictToDict(e: Entity)
    ensures FromDict(KindOf(e), ToDict(e)) == Some(e)
  {
  }

  /** Conversely, every object that reads back as an entity is that entity's
      `to_dict`. */
  lemma ToDictFromDict(k: Kind, d: map<string, Value>)
    requires FromDict(k, d).Some?
    ensures ToDict(FromDict(k, d).value) == d
  {
  }
}

=== FILE: wrappers.dfy ===
/** Absence and failure values shared by the rest of the model. */
module Wrappers {

  /** Python's `None` next to a present value. */
  datatype Option<+T> = None | Some(value: T)

  /** A call that either returns a value or raises an error. */
  datatype Result<+T, +E> = Success(value: T) | Failure(error: E)
}
